=== FILE: README.md ===
# CREDO detector decision core in Dafny

This project models the decision core of the CREDO mobile detector. It has two small
sequential state machines:

- **DetectorService**, the background service that gates the camera on the device's condition.
  It checks three rules in order: charger-only, minimum battery level, maximum temperature.
  It publishes a severity (`Normal < Warning < Error`) and a status message. It starts or
  stops the camera so that it matches the verdict. It also caches sensor readings.
- **CredoApplication**, the application object that switches detection on and off. It does
  this with a test-and-set on its `detectorRunning` flag and a `DetectorMode`. It mirrors the
  running flag of each detector state event it receives. It decides at start-up whether to turn
  detection on, and it holds the `isEmulator` heuristic over the `Build` strings.

Everything is a pure function over immutable records:

- `DetectorService.Service` holds the published `StateEvent` (the `DetectorStateEvent`), the
  last `Battery` event, the `Config` settings and the chosen preview size. It also holds two
  logs: `actions`, the calls made on the camera hardware (`Camera.open()` and `release()`), and
  `emitted`, every snapshot posted on the event bus.
- `CredoApplication.App` holds the flag, the mode, the last detector state and `commands`, the
  `startService` and `stopService` calls.

The outcome of `Camera.open()` is an input of type `CameraOpen`. It succeeds with the list
of supported preview sizes, throws with a detail text, or returns no camera (`NoCamera`, a
device without a back-facing camera). Status texts are tags of type
`Message`, one per string resource.

Modules:

- `DetectorState` (detector_state.dfy): the published state, battery event, settings and
  severity order.
- `DetectorService` (detector_service.dfy): the condition check, `startCamera`, `stopCamera`,
  the reconcile step and the event handlers.
- `ServiceProperties` (service_properties.dfy): rule priority, sticky Error, idempotence and
  settling.
- `ServiceLifecycle` (service_lifecycle.dfy): the callbacks as an event stream, the lifetime
  invariant and an end-to-end scenario.
- `CredoApplication` (credo_application.dfy): the detection on/off switch, start-up and the
  emulator heuristic.
- `Text` (text.dfy): Kotlin `startsWith` and `contains`.
- `Wiring` (wiring.dfy): delivery of posted detector states to the application. It assumes
  that the detector service the application starts behaves like the modelled DetectorService
  (see "Left out").

## Model

| member | source | states |
|---|---|---|
| DetectorService.SetState | app/src/main/java/science/credo/credomobiledetektor/DetectorService.kt:255-259 | Overwrites severity and message, leaves every other field alone, and posts the new state, so the last post is the current state. |
| DetectorService.Emit | app/src/main/java/science/credo/credomobiledetektor/DetectorService.kt:261-263 | Appends a copy of the current state to the posts and changes nothing else, so the last post is the current state. |
| DetectorService.CheckConditions | app/src/main/java/science/credo/credomobiledetektor/DetectorService.kt:110-131 | Passes exactly when no rule fails. The first failing rule in priority order sets Warning with that rule's message. A pass sets Normal with an empty message unless the severity is Error, which is then left untouched and not re-posted. Only severity, message and the post log change. |
| DetectorService.DecidingRuleUnique | app/src/main/java/science/credo/credomobiledetektor/DetectorService.kt:110-124 | When the check fails, exactly one rule is the first failing one. |
| ServiceProperties.AllowedReadsSetting | app/src/main/java/science/credo/credomobiledetektor/DetectorService.kt:110-124 | The verdict depends only on the battery event, the settings and the cached temperature. |
| ServiceProperties.ChargingWarningIff | app/src/main/java/science/credo/credomobiledetektor/DetectorService.kt:111-114 | The check refuses with the charging warning if and only if charger-only is set and the device is not charging. |
| ServiceProperties.LowBatteryWarningIff | app/src/main/java/science/credo/credomobiledetektor/DetectorService.kt:116-119 | The check refuses with the low-battery warning if and only if the charger rule passes and the level is strictly below the threshold (equality passes). |
| ServiceProperties.TooHotWarningIff | app/src/main/java/science/credo/credomobiledetektor/DetectorService.kt:121-124 | The check refuses with the too-hot warning if and only if the first two rules pass and the temperature is strictly above the maximum. |
| ServiceProperties.ChargerRuleDominates | app/src/main/java/science/credo/credomobiledetektor/DetectorService.kt:111-114 | A missing charger under charger-only gives the charging warning whatever the battery level and temperature are. |
| ServiceProperties.ErrorOnlyLeftByFailingCheck | app/src/main/java/science/credo/credomobiledetektor/DetectorService.kt:110-130 | From Error, a passing check keeps Error and its message, and a failing one overwrites it with Warning. |
| DetectorService.PreviewIndex | app/src/main/java/science/credo/credomobiledetektor/DetectorService.kt:176 | For n > 0 sizes the chosen index lies in [0, n). It is the middle one: it has as many sizes before it as after it, or one more before it. |
| ServiceProperties.MediumPreviewSize | app/src/main/java/science/credo/credomobiledetektor/DetectorService.kt:175-182 | Of five sizes the third, 1280x720, is used. |
| DetectorService.StartCamera | app/src/main/java/science/credo/credomobiledetektor/DetectorService.kt:146-206 | When the conditions fail or the camera is already on, it makes no camera call. Otherwise it makes one open attempt. An open that throws or returns no camera leaves the camera off with Error and the emulator or camera message. A successful open turns the camera on, uses the middle preview size and reports Normal "running". |
| DetectorService.StartCameraAsWritten | app/src/main/java/science/credo/credomobiledetektor/DetectorService.kt:158-173 | As the source is written: when `Camera.open()` returns no camera and the start goes ahead, the camera flag ends on, one open attempt is logged, and the only post after the call is a copy of the state with the camera off. Every other outcome equals `StartCamera`'s. |
| ServiceProperties.NoCameraAsWrittenUnreported | app/src/main/java/science/credo/credomobiledetektor/DetectorService.kt:158-173 | As written, a start that finds no camera leaves the flag on while the last post says the camera is off. |
| ServiceProperties.NoCameraReported | app/src/main/java/science/credo/credomobiledetektor/DetectorService.kt:158-172 | Handled like a failed open, a start that finds no camera ends with the camera off, Error, and the current state posted last. |
| ServiceProperties.StartCameraIdempotent | app/src/main/java/science/credo/credomobiledetektor/DetectorService.kt:146-161 | A second start after a successful open makes no camera call and changes neither the camera flag nor the preview size. |
| DetectorService.StopCamera | app/src/main/java/science/credo/credomobiledetektor/DetectorService.kt:208-221 | Afterwards the camera is off. When it was already off nothing changes. Otherwise one release is made and the stopped state is posted. |
| ServiceProperties.StopCameraIdempotent | app/src/main/java/science/credo/credomobiledetektor/DetectorService.kt:208-213 | Stopping twice equals stopping once. |
| DetectorService.Reconcile | app/src/main/java/science/credo/credomobiledetektor/DetectorService.kt:133-140 | Makes at most one camera call: an open when the check passes with the camera off, a release when it fails with the camera on, none otherwise. Afterwards the camera is on exactly when the check passes and the camera was on or opens. It gives the resulting severity in each case, keeps the settings and readings, and only appends posts. |
| ServiceProperties.ReconcileSettles | app/src/main/java/science/credo/credomobiledetektor/DetectorService.kt:133-140 | After a reconcile whose open succeeds, a second reconcile with nothing changed makes no camera call. |
| ServiceProperties.FailedOpenRetried | app/src/main/java/science/credo/credomobiledetektor/DetectorService.kt:133-172 | After an open that threw or found no camera, the next reconcile with the conditions still passing opens again. |
| ServiceProperties.RunningMessageCleared | app/src/main/java/science/credo/credomobiledetektor/DetectorService.kt:126-137 | After a successful start, the next reconcile keeps the camera on but replaces the "running" message with the empty one. |
| DetectorService.OnCreate | app/src/main/java/science/credo/credomobiledetektor/DetectorService.kt:59-65 | Sets the running flag, changes nothing else and posts the new state. |
| DetectorService.OnStartCommand | app/src/main/java/science/credo/credomobiledetektor/DetectorService.kt:67-92 | Loads the settings and starts the camera against the battery state held before registration, then stores the registered battery state. It makes at most one camera call. |
| DetectorService.OnDestroy | app/src/main/java/science/credo/credomobiledetektor/DetectorService.kt:94-108 | Releases the camera if it was on, clears running, and posts the stopped state last. |
| DetectorService.OnSensorChanged | app/src/main/java/science/credo/credomobiledetektor/DetectorService.kt:268-278 | An accelerometer event sets the three axes and a temperature event sets the temperature. Other sensors and a missing event change nothing. Camera flag, severity and message never change, and nothing is posted. |
| DetectorService.OnBatteryEvent | app/src/main/java/science/credo/credomobiledetektor/DetectorService.kt:280-284 | Stores the battery event, then the camera ends on exactly when the new conditions pass and it was on or opens. At most one camera call. |
| DetectorService.OnSharedPreferenceChanged | app/src/main/java/science/credo/credomobiledetektor/DetectorService.kt:142-144 | Uses the new settings, then the camera ends on exactly when they pass and it was on or opens. At most one camera call. |
| ServiceLifecycle.RunningWhileAlive | app/src/main/java/science/credo/credomobiledetektor/DetectorService.kt:59-108 | Between onCreate and onDestroy the service stays running, posts are only appended, and the camera calls never outnumber the callbacks. |
| ServiceLifecycle.OneCameraCallPerCallback | app/src/main/java/science/credo/credomobiledetektor/DetectorService.kt:59-108 | Each single callback makes at most one camera call. |
| ServiceLifecycle.ApplyKeepsPreview | app/src/main/java/science/credo/credomobiledetektor/DetectorService.kt:146-221 | Every callback keeps the invariant that a camera that is on has its preview size chosen. |
| ServiceLifecycle.RunKeepsPreview | app/src/main/java/science/credo/credomobiledetektor/DetectorService.kt:146-221 | After any sequence of callbacks, a camera that is on has its preview size chosen. |
| ServiceLifecycle.Lifetime | app/src/main/java/science/credo/credomobiledetektor/DetectorService.kt:59-108 | Throughout create, start command, any callbacks, then destroy, a service that is not running holds no camera. At the end the camera is off and the stopped state was posted last. |
| ServiceLifecycle.HotThenCoolScenario | app/src/main/java/science/credo/credomobiledetektor/DetectorService.kt:110-220 | With no charger needed, at least 20% battery and at most 45 degrees, the start command opens the camera exactly when the battery state held before registration has at least 20%, whatever that default is. Either way the camera runs after the first battery event at 50%, with exactly one open so far. It stops with "too hot" on the first battery event after a 50-degree reading, and restarts on the next one after a 30-degree reading. The camera calls are open, release, open. |
| ServiceLifecycle.StartThenFirstBattery | app/src/main/java/science/credo/credomobiledetektor/DetectorService.kt:67-92 | The start command opens the camera exactly when the battery state held before registration passes the 20% rule. After the first battery event at 50% the camera runs with Normal status and exactly one open. |
| ServiceLifecycle.HotStopsCoolRestarts | app/src/main/java/science/credo/credomobiledetektor/DetectorService.kt:268-284 | From a running camera, a 50-degree reading stops it with "too hot" at the next battery event, and a 30-degree reading restarts it at the one after. |
| CredoApplication.TurnOnDetection | app/src/main/java/science/credo/mobiledetector/CredoApplication.kt:50-59 | Acts only when the flag is clear, then sets it and sets mode CHECK whatever was asked. CHECK starts the hardware check, DETECTION or CALIBRATION start the detector, OFF starts nothing. When the flag is already set, nothing changes. |
| CredoApplication.TurnOnIdempotent | app/src/main/java/science/credo/mobiledetector/CredoApplication.kt:51 | A second turn-on changes nothing, whatever mode it asks for. |
| CredoApplication.TurnOffDetection | app/src/main/java/science/credo/mobiledetector/CredoApplication.kt:61-65 | Always ends with the flag clear and mode OFF, and stops the detector service. |
| CredoApplication.TurnOffReenablesTurnOn | app/src/main/java/science/credo/mobiledetector/CredoApplication.kt:50-65 | After a turn-off, the next turn-on always acts. |
| CredoApplication.OnDetectorStateChange | app/src/main/java/science/credo/mobiledetector/CredoApplication.kt:67-71 | The flag becomes the event's running flag and the stored state becomes the event. Mode and services are untouched. |
| CredoApplication.OnCreate | app/src/main/java/science/credo/mobiledetector/CredoApplication.kt:39-48 | Without auto-run the detection preference is cleared. Detection is turned on in DETECTION mode exactly when auto-run and the preference are both set. |
| CredoApplication.StartupStartsDetector | app/src/main/java/science/credo/mobiledetector/CredoApplication.kt:42-47 | On a fresh application, start-up starts the detector service if and only if auto-run and the detection preference are both set. |
| CredoApplication.IsEmulatorIff | app/src/main/java/science/credo/mobiledetector/CredoApplication.kt:74-83 | The heuristic holds if and only if some clause of its table holds. There are eight clauses, and brand plus device form one clause because Kotlin's and binds tighter than its or. |
| CredoApplication.GenericBrandNeedsGenericDevice | app/src/main/java/science/credo/mobiledetector/CredoApplication.kt:81 | When every other clause fails, the heuristic holds exactly when both brand and device start with "generic". |
| Text.ContainsIff | app/src/main/java/science/credo/mobiledetector/CredoApplication.kt:77-80 | The left-to-right scan used for `contains` finds the text exactly when some window of the string equals it. |
| Wiring.LastPostWins | app/src/main/java/science/credo/mobiledetector/CredoApplication.kt:67-71 | After any non-empty sequence of posts, the application's flag and stored state are those of the last post. Mode and services are untouched. |
| Wiring.DestroyReenablesTurnOn | app/src/main/java/science/credo/credomobiledetektor/DetectorService.kt:94-108 | Once the posts of the service's onDestroy are delivered, the application sees the detector stopped and the next turn-on acts. |
| Wiring.CreateBlocksTurnOn | app/src/main/java/science/credo/credomobiledetektor/DetectorService.kt:59-65 | Once the post of the service's onCreate is delivered, a further turn-on is ignored. |

## Left out

- The three scheduled jobs (ping, hit synchronisation, database trim) and `startPing`/`stopPing`
  (DetectorService.kt:223-253). They are concurrency, timing, network and database calls with
  no local decision logic.
- Wake lock, broadcast-receiver registration, sensor and preference listener registration,
  event-bus registration, toasts and string resources. Messages are tags of type `Message`.
- DetectorService.StartCamera: an `Opened` outcome assumes the set-up at
  DetectorService.kt:173-204 completes. `setParameters` at :183 and `addView` at :202 (which
  throws without the overlay permission) run outside the `try`. If they throw, the exception
  leaves `startCamera` with the camera flag already on and nothing posted. On the
  `onStartCommand` and `onSharedPreferenceChanged` paths that crashes the service. On the
  `onBatteryEvent` path the event bus logs the exception and the service goes on with the
  flag on. The model has no outcome for that. The null return of `Camera.open()` is modelled: see "Findings".
- Camera parameters other than the preview size: the recording hint, the surface view, the
  window overlay and the preview callback (DetectorService.kt:173-204, 216-219). A release is
  recorded as one `Release` action.
- The conversion of sensor floats to ints. Readings are ints, and each sensor variant carries
  exactly the values the source reads.
- An empty preview-size list is excluded by the `SizeList` type. The camera API guarantees at
  least one size, so the index-out-of-bounds path that `sizes[index]` would have is not
  modelled.
- `mConfigurationInfo` is null until `onStartCommand`, and a battery event delivered before
  it would fail on `!!`. The model always has settings.
- The `isEmulator` called in `startCamera` belongs to another `CredoApplication` class that is
  not part of this model. It is the boolean parameter `isEmulator` of `StartCamera`.
- `DetectorStateEvent`, `BatteryEvent` and `ConfigurationInfo` are not part of this model. Two
  things are assumed for them:
  - The field defaults are not running, camera off, Normal, empty message and zero readings.
  - `StateType` is declared in the order Normal, Warning, Error.

  `Fresh` takes the default battery event and the settings as parameters.
- CredoApplication.OnCreate reads two different settings classes, both in the application's
  own package and neither part of this model. `autoRun` comes from `ConfigurationWrapper`
  (CredoApplication.kt:42). `isDetectionOn` comes from `mobiledetector.info.ConfigurationInfo`
  (:43, :45), which is not the service's `credomobiledetektor.info.ConfigurationInfo`. The
  `Prefs` record merges the two. The model also assumes that the fresh `ConfigurationInfo`
  made at :45 reads back the `false` written through another instance at :43.
- The atomicity of `AtomicBoolean`. Compare-and-set is a sequential test-and-set.
- ACRA and MultiDex set-up, `cameraSettings`, `onBind`, `onAccuracyChanged`, and the
  instance counter that only feeds log lines.
- Reading `Build.*`: `IsEmulator` takes the strings in a `BuildInfo` record.
- Wiring.LastPostWins, Wiring.DestroyReenablesTurnOn and Wiring.CreateBlocksTurnOn assume a
  connection that the two source files do not make. The modelled service is in package
  `credomobiledetektor` and posts that package's `DetectorStateEvent`. The application is in
  package `mobiledetector`: it subscribes to its own package's `DetectorStateEvent` and
  starts its own package's `DetectorService`. Neither of those is part of this model. The
  lemmas hold for that service only if it posts its states as the modelled one does.
- DetectorService.OnSharedPreferenceChanged takes the new settings as a parameter. The source
  handler only reconciles and keeps its `ConfigurationInfo` object. The parameter is right
  only if `ConfigurationInfo` reads the preferences on every access, which is a third
  assumption about that class.
- ServiceLifecycle.Lifetime requires `onStartCommand` to come first after `onCreate`, which is
  Android's order for a started service. If `onDestroy` came without a prior
  `onStartCommand`, `unregisterReceiver` would throw for a receiver that was never
  registered, before the stopped state is posted. That path is not modelled.
- The integer `value` carried by each `DetectorMode` constant: nothing in the modelled code
  reads it.
- Late callbacks after `onDestroy` are not modelled. The source unregisters its listeners
  there, so `ServiceLifecycle.Lifetime` only covers event streams that end with destroy.
- DetectorService.OnStartCommand: its contract bounds the camera calls and states the camera
  flag, but says nothing about severity or message. Those are the ones `StartCamera` states.

## Findings

| source | as written | input that shows it | evidently intended | confidence | as-written member | corrected member |
|---|---|---|---|---|---|---|
| app/src/main/java/science/credo/credomobiledetektor/DetectorService.kt:158-173 | Only `Camera.open()` is inside the `try`. A null return sets the camera flag, and then `mCamera!!` throws outside the handler. The exception leaves `startCamera` with the flag on while the last post says the camera is off. From `onStartCommand` or `onSharedPreferenceChanged` it crashes the service. From `onBatteryEvent` the event bus logs it, and the service keeps running with the flag on and no camera. | Conditions pass, camera off, a device with no back-facing camera, so `Camera.open()` returns null. | A device without a camera is reported like a failed open: camera off, Error, state posted. | medium, not executed | ServiceProperties.NoCameraAsWrittenUnreported | ServiceProperties.NoCameraReported |

## Notes on the code's behaviour

- After a failed open, the code retries the open on every reconcile whose conditions still
  pass (`ServiceProperties.FailedOpenRetried`). A second reconcile with nothing changed makes
  no camera call only after a successful open (`ServiceProperties.ReconcileSettles`).
- `stopCamera` returns at once when the camera is already off, and `onDestroy` goes through
  that guard, so destroying a service whose camera is off makes no release call.
- A sensor event changes the cached temperature without a reconcile. The camera can stay on
  while the conditions would fail, until the next battery or preference event.
- Error is not sticky for ever. A passing check keeps it, but a successful camera open
  replaces it with Normal "running", and a failing check replaces it with Warning.

=== FILE: credo_application.dfy ===
/** CredoApplication: the on/off switch for detection, the start-up rule, the mirror of the
    detector's published state, and the emulator heuristic. Starting and stopping services
    is recorded in `commands`. */
module CredoApplication {
  import opened DetectorState
  import opened Text

  /** DetectorMode, in declaration order. */
  datatype DetectorMode = Off | Check | Calibration | Detection

  /** A `startService`/`stopService` call the application makes. */
  datatype ServiceCommand = StartHardwareCheck | StartDetector | StopDetector

  /** The application's fields: the running flag, the mode, the last detector state it was
      told about, and the service calls made so far. */
  datatype App = App(
    detectorRunning: bool,
    mode: DetectorMode,
    detectorState: StateEvent,
    commands: seq<ServiceCommand>)

  function Fresh(): App
  {
    App(false, Off, InitialState(false), [])
  }

  /** `turnOnDetection(mode)`: a test-and-set on the running flag. Only the call that finds it
      clear acts: it sets the flag, puts the mode to CHECK whatever was asked, and starts the
      hardware check for CHECK, the detector for DETECTION or CALIBRATION, and nothing for
      OFF. */
  function TurnOnDetection(a: App, mode: DetectorMode): (r: App)
    ensures a.detectorRunning ==> r == a
    ensures !a.detectorRunning ==>
              && r.detectorRunning
              && r.mode == Check
              && r.detectorState == a.detectorState
    ensures !a.detectorRunning && mode == Check ==> r.commands == a.commands + [StartHardwareCheck]
    ensures !a.detectorRunning && (mode == Detection || mode == Calibration) ==>
              r.commands == a.commands + [StartDetector]
    ensures !a.detectorRunning && mode == Off ==> r.commands == a.commands
  {
    if a.detectorRunning then
      a
    else
      var started := if mode == Check then [StartHardwareCheck]
                     else if mode == Detection || mode == Calibration then [StartDetector]
                     else [];
      a.(detectorRunning := true, mode := Check, commands := a.commands + started)
  }

  /** `turnOffDetection`: stops the detector service and clears the flag and the mode. */
  function TurnOffDetection(a: App): (r: App)
    ensures !r.detectorRunning && r.mode == Off
    ensures r.detectorState == a.detectorState
    ensures r.commands == a.commands + [StopDetector]
  {
    a.(detectorRunning := false, mode := Off, commands := a.commands + [StopDetector])
  }

  /** `onDetectorStateChange`: the flag follows the detector's own running flag. */
  function OnDetectorStateChange(a: App, event: StateEvent): (r: App)
    ensures r.detectorRunning == event.running && r.detectorState == event
    ensures r.mode == a.mode && r.commands == a.commands
  {
    a.(detectorState := event, detectorRunning := event.running)
  }

  /** A second `turnOnDetection` changes nothing, whatever mode it asks for. */
  lemma TurnOnIdempotent(a: App, m1: DetectorMode, m2: DetectorMode)
    ensures TurnOnDetection(TurnOnDetection(a, m1), m2) == TurnOnDetection(a, m1)
  {
  }

  /** After `turnOffDetection` the next `turnOnDetection` always acts. */
  lemma TurnOffReenablesTurnOn(a: App, mode: DetectorMode)
    ensures var r := TurnOnDetection(TurnOffDetection(a), mode);
            r.detectorRunning && r.mode == Check &&
            |r.commands| >= |a.commands| + 1 && r.commands[|a.commands|] == StopDetector
  {
  }

  /** The stored detection preferences. */
  datatype Prefs = Prefs(autoRun: bool, isDetectionOn: bool)

  /** The application and its preferences after start-up. */
  datatype Launch = Launch(app: App, prefs: Prefs)

  /** `onCreate`: without auto-run the detection preference is cleared; detection is then
      turned on, in the default DETECTION mode, exactly when the preference is still set. */
  function OnCreate(a: App, prefs: Prefs): (l: Launch)
    ensures l.prefs.autoRun == prefs.autoRun
    ensures l.prefs.isDetectionOn <==> prefs.autoRun && prefs.isDetectionOn
    ensures l.prefs.isDetectionOn ==> l.app == TurnOnDetection(a, Detection)
    ensures !l.prefs.isDetectionOn ==> l.app == a
  {
    var p := if !prefs.autoRun then prefs.(isDetectionOn := false) else prefs;
    Launch(if p.isDetectionOn then TurnOnDetection(a, Detection) else a, p)
  }

  /** On a fresh application, start-up starts the detector service exactly when auto-run and
      the detection preference are both set. */
  lemma StartupStartsDetector(prefs: Prefs)
    ensures var l := OnCreate(Fresh(), prefs);
            (l.app.commands == [StartDetector] <==> prefs.autoRun && prefs.isDetectionOn) &&
            (l.app.commands == [] <==> !(prefs.autoRun && prefs.isDetectionOn))
  {
  }

  // ---------------------------------------------------------------------------------------
  // Emulator heuristic
  // ---------------------------------------------------------------------------------------

  /** The `Build` fields the heuristic reads. */
  datatype BuildInfo = BuildInfo(
    fingerprint: string,
    model: string,
    manufacturer: string,
    brand: string,
    device: string,
    product: string)

  /** `isEmulator`. Kotlin's `&&` binds tighter than `||`, so the brand and device tests form
      one clause. */
  function IsEmulator(b: BuildInfo): bool
  {
    StartsWith(b.fingerprint, "generic")
    || StartsWith(b.fingerprint, "unknown")
    || Contains(b.model, "google_sdk")
    || Contains(b.model, "Emulator")
    || Contains(b.model, "Android SDK built for x86")
    || Contains(b.manufacturer, "Genymotion")
    || (StartsWith(b.brand, "generic") && StartsWith(b.device, "generic"))
    || "google_sdk" == b.product
  }

  datatype Field = Fingerprint | Model | Manufacturer | Brand | Device | Product

  function FieldOf(b: BuildInfo, f: Field): string
  {
    match f
    case Fingerprint => b.fingerprint
    case Model => b.model
    case Manufacturer => b.manufacturer
    case Brand => b.brand
    case Device => b.device
    case Product => b.product
  }

  /** One test on one field. */
  datatype Test = Prefix(field: Field, text: string)
                | Substring(field: Field, text: string)
                | Equals(field: Field, text: string)

  ghost predicate Passes(t: Test, b: BuildInfo)
  {
    match t
    case Prefix(f, x) => OccursAt(FieldOf(b, f), x, 0)
    case Substring(f, x) => exists i :: OccursAt(FieldOf(b, f), x, i)
    case Equals(f, x) => FieldOf(b, f) == x
  }

  /** The heuristic as a table of clauses: a build is an emulator when every test of some
      clause passes. */
  const EmulatorClauses: seq<seq<Test>> := [
    [Prefix(Fingerprint, "generic")],
    [Prefix(Fingerprint, "unknown")],
    [Substring(Model, "google_sdk")],
    [Substring(Model, "Emulator")],
    [Substring(Model, "Android SDK built for x86")],
    [Substring(Manufacturer, "Genymotion")],
    [Prefix(Brand, "generic"), Prefix(Device, "generic")],
    [Equals(Product, "google_sdk")]
  ]

  ghost predicate ClauseHolds(clause: seq<Test>, b: BuildInfo)
  {
    forall k :: 0 <= k < |clause| ==> Passes(clause[k], b)
  }

  /** `isEmulator` holds exactly when some clause of the table holds. */
  lemma IsEmulatorIff(b: BuildInfo)
    ensures IsEmulator(b) <==>
              exists k :: 0 <= k < |EmulatorClauses| && ClauseHolds(EmulatorClauses[k], b)
  {
    PrefixPasses(Fingerprint, "generic", b);
    PrefixPasses(Fingerprint, "unknown", b);
    PrefixPasses(Brand, "generic", b);
    PrefixPasses(Device, "generic", b);
    SubstringPasses(Model, "google_sdk", b);
    SubstringPasses(Model, "Emulator", b);
    SubstringPasses(Model, "Android SDK built for x86", b);
    SubstringPasses(Manufacturer, "Genymotion", b);
    var cs := EmulatorClauses;
    assert cs[0] == [Prefix(Fingerprint, "generic")];
    assert cs[1] == [Prefix(Fingerprint, "unknown")];
    assert cs[2] == [Substring(Model, "google_sdk")];
    assert cs[3] == [Substring(Model, "Emulator")];
    assert cs[4] == [Substring(Model, "Android SDK built for x86")];
    assert cs[5] == [Substring(Manufacturer, "Genymotion")];
    assert cs[6] == [Prefix(Brand, "generic"), Prefix(Device, "generic")];
    assert cs[7] == [Equals(Product, "google_sdk")];
    SingleClause(Prefix(Fingerprint, "generic"), b);
    SingleClause(Prefix(Fingerprint, "unknown"), b);
    SingleClause(Substring(Model, "google_sdk"), b);
    SingleClause(Substring(Model, "Emulator"), b);
    SingleClause(Substring(Model, "Android SDK built for x86"), b);
    SingleClause(Substring(Manufacturer, "Genymotion"), b);
    SingleClause(Equals(Product, "google_sdk"), b);
    PairClause(Prefix(Brand, "generic"), Prefix(Device, "generic"), b);
    if IsEmulator(b) {
      if StartsWith(b.fingerprint, "generic") {
        assert ClauseHolds(cs[0], b);
      } else if StartsWith(b.fingerprint, "unknown") {
        assert ClauseHolds(cs[1], b);
      } else if Contains(b.model, "google_sdk") {
        assert ClauseHolds(cs[2], b);
      } else if Contains(b.model, "Emulator") {
        assert ClauseHolds(cs[3], b);
      } else if Contains(b.model, "Android SDK built for x86") {
        assert ClauseHolds(cs[4], b);
      } else if Contains(b.manufacturer, "Genymotion") {
        assert ClauseHolds(cs[5], b);
      } else if StartsWith(b.brand, "generic") && StartsWith(b.device, "generic") {
        assert ClauseHolds(cs[6], b);
      } else {
        assert ClauseHolds(cs[7], b);
      }
    } else {
      forall k | 0 <= k < |cs|
        ensures !ClauseHolds(cs[k], b)
      {
        assert k in {0, 1, 2, 3, 4, 5, 6, 7};
      }
    }
  }

  lemma PrefixPasses(f: Field, x: string, b: BuildInfo)
    ensures Passes(Prefix(f, x), b) <==> StartsWith(FieldOf(b, f), x)
  {
    StartsWithIff(FieldOf(b, f), x);
  }

  lemma SubstringPasses(f: Field, x: string, b: BuildInfo)
    ensures Passes(Substring(f, x), b) <==> Contains(FieldOf(b, f), x)
  {
    ContainsIff(FieldOf(b, f), x);
  }

  /** A clause of two tests holds when both pass. */
  lemma PairClause(t: Test, u: Test, b: BuildInfo)
    ensures ClauseHolds([t, u], b) <==> Passes(t, b) && Passes(u, b)
  {
    assert [t, u][0] == t && [t, u][1] == u;
  }

  /** A clause of one test holds when that test passes. */
  lemma SingleClause(t: Test, b: BuildInfo)
    ensures ClauseHolds([t], b) <==> Passes(t, b)
  {
    assert [t][0] == t;
  }

  /** A "generic" brand alone does not make an emulator: the device must start with "generic"
      too. */
  lemma GenericBrandNeedsGenericDevice(b: BuildInfo)
    requires !StartsWith(b.fingerprint, "generic") && !StartsWith(b.fingerprint, "unknown")
    requires !Contains(b.model, "google_sdk") && !Contains(b.model, "Emulator")
    requires !Contains(b.model, "Android SDK built for x86")
    requires !Contains(b.manufacturer, "Genymotion") && b.product != "google_sdk"
    ensures IsEmulator(b) <==> StartsWith(b.brand, "generic") && StartsWith(b.device, "generic")
  {
  }
}

=== FILE: detector_service.dfy ===
/** The decision core of DetectorService: the condition check, the camera start/stop guards,
    the reconcile step and the event handlers that drive them. Android calls are abstracted:
    the outcome of `Camera.open()` is an input, every `EventBus` post is appended to
    `emitted`, and every call on the camera hardware is appended to `actions`. */
module DetectorService {
  import opened DetectorState

  datatype PreviewSize = PreviewSize(width: int, height: int)

  /** Camera.Parameters.getSupportedPreviewSizes returns at least one size. */
  type SizeList = s: seq<PreviewSize> | |s| > 0 witness [PreviewSize(0, 0)]

  /** What `Camera.open()` does when the service calls it: it returns a camera with its
      supported preview sizes, throws with a detail text, or returns null because the device
      has no back-facing camera. */
  datatype CameraOpen = Opened(sizes: SizeList) | OpenFailed(detail: string) | NoCamera

  /** A call the service makes on the camera hardware. */
  datatype CameraAction = OpenAttempt | Release

  /** A sensor callback: the variant is the sensor type, the fields the values it carries
      (already converted to int). */
  datatype SensorEvent =
    | Accelerometer(x: int, y: int, z: int)
    | AmbientTemperature(celsius: int)
    | OtherSensor(sensorType: int)

  /** The service's fields: the published state, the last battery event, the settings, the
      preview size of the most recently opened camera, and the logs of hardware calls and of
      posted snapshots. */
  datatype Service = Service(
    state: StateEvent,
    battery: Battery,
    config: Config,
    preview: Option<PreviewSize>,
    actions: seq<CameraAction>,
    emitted: seq<StateEvent>)

  /** A service object before `onCreate`: not running, nothing posted yet. */
  function Fresh(battery: Battery, config: Config): Service
  {
    Service(InitialState(false), battery, config, None, [], [])
  }

  /** The last snapshot posted is the current state. */
  predicate Published(s: Service)
  {
    |s.emitted| > 0 && s.emitted[|s.emitted| - 1] == s.state
  }

  /** A camera that is on has had its preview size chosen. */
  predicate PreviewChosen(s: Service)
  {
    s.state.cameraOn ==> s.preview.Some?
  }

  /** The battery state, the settings, the running flag and the sensor readings agree. */
  predicate SameSetting(a: Service, b: Service)
  {
    a.battery == b.battery && a.config == b.config &&
    a.state.running == b.state.running && SameReadings(a.state, b.state)
  }

  // ---------------------------------------------------------------------------------------
  // Condition rules
  // ---------------------------------------------------------------------------------------

  /** The three conditions, in the order the check tests them. */
  datatype Rule = ChargerOnly | BatteryLevel | MaxTemperature {
    function Priority(): nat
    {
      match this
      case ChargerOnly => 0
      case BatteryLevel => 1
      case MaxTemperature => 2
    }

    /** The warning shown when this rule stops the detector. */
    function Warning(): Message
    {
      match this
      case ChargerOnly => ChargingRequired
      case BatteryLevel => LowBattery
      case MaxTemperature => TooHot
    }

    predicate Fails(s: Service)
    {
      match this
      case ChargerOnly => s.config.chargerOnly && !s.battery.isCharging
      case BatteryLevel => s.battery.pct < s.config.batteryLevel
      case MaxTemperature => s.state.temperature > s.config.maxTemperature
    }

    /** This rule fails and no rule checked before it does: its warning is the one shown. */
    ghost predicate Decides(s: Service)
    {
      Fails(s) && forall e: Rule :: e.Priority() < Priority() ==> !e.Fails(s)
    }
  }

  /** No rule fails: the camera may run. */
  ghost predicate Allowed(s: Service)
  {
    forall rule: Rule :: !rule.Fails(s)
  }

  /** When the camera may not run, exactly one rule decides why. */
  lemma DecidingRuleUnique(s: Service)
    requires !Allowed(s)
    ensures exists rule: Rule :: rule.Decides(s)
    ensures forall r1: Rule, r2: Rule :: r1.Decides(s) && r2.Decides(s) ==> r1 == r2
  {
    if ChargerOnly.Fails(s) {
      assert ChargerOnly.Decides(s);
    } else if BatteryLevel.Fails(s) {
      assert BatteryLevel.Decides(s);
    } else {
      assert MaxTemperature.Decides(s);
    }
  }

  // ---------------------------------------------------------------------------------------
  // State updates
  // ---------------------------------------------------------------------------------------

  /** `setState`: overwrite severity and message, then post a copy of the state. */
  function SetState(s: Service, severity: Severity, message: Message): (r: Service)
    ensures r.state == s.state.(severity := severity, message := message)
    ensures r.emitted == s.emitted + [r.state] && Published(r)
    ensures r == s.(state := r.state, emitted := r.emitted)
  {
    var st := s.state.(severity := severity, message := message);
    s.(state := st, emitted := s.emitted + [st])
  }

  /** `emitStateChange`: post a copy of the state. */
  function Emit(s: Service): (r: Service)
    ensures Published(r) && r.emitted == s.emitted + [s.state]
    ensures r == s.(emitted := r.emitted)
  {
    s.(emitted := s.emitted + [s.state])
  }

  /** The result of `checkConditionsAndEmitState`: the verdict and the updated service. */
  datatype Checked = Checked(allowed: bool, svc: Service)

  /** `checkConditionsAndEmitState`: the first failing rule sets a Warning and refuses; when
      every rule passes, a severity below Error becomes Normal with an empty message, while an
      Error and its message stay as they are. */
  function CheckConditions(s: Service): (c: Checked)
    ensures c.allowed <==> Allowed(s)
    ensures forall rule: Rule :: rule.Decides(s) ==>
              c.svc.state == s.state.(severity := Warning, message := rule.Warning())
    ensures c.allowed && s.state.severity != Error ==>
              c.svc.state == s.state.(severity := Normal, message := NoMessage)
    ensures c.allowed && s.state.severity == Error ==> c.svc == s
    ensures c.svc.emitted == (if c.allowed && s.state.severity == Error then s.emitted
                              else s.emitted + [c.svc.state])
    ensures c.svc == s.(state := c.svc.state, emitted := c.svc.emitted)
    ensures c.svc.state == s.state.(severity := c.svc.state.severity, message := c.svc.state.message)
  {
    if s.config.chargerOnly && !s.battery.isCharging then
      assert ChargerOnly.Fails(s);
      Checked(false, SetState(s, Warning, ChargingRequired))
    else if s.battery.pct < s.config.batteryLevel then
      assert !ChargerOnly.Fails(s) && BatteryLevel.Fails(s);
      Checked(false, SetState(s, Warning, LowBattery))
    else if s.state.temperature > s.config.maxTemperature then
      assert !ChargerOnly.Fails(s) && !BatteryLevel.Fails(s) && MaxTemperature.Fails(s);
      Checked(false, SetState(s, Warning, TooHot))
    else
      assert !ChargerOnly.Fails(s) && !BatteryLevel.Fails(s) && !MaxTemperature.Fails(s);
      if s.state.severity.Below(Error) then
        Checked(true, SetState(s, Normal, NoMessage))
      else
        Checked(true, s)
  }

  // ---------------------------------------------------------------------------------------
  // Camera
  // ---------------------------------------------------------------------------------------

  /** The preview size index `sizes.size/2`: the middle entry, with as many sizes before it as
      after it, or one more before it when the count is even. */
  function PreviewIndex(n: nat): (i: nat)
    requires n > 0
    ensures i < n
    ensures i == n - 1 - i || i == n - i
  {
    n / 2
  }

  /** The Error status of a start that got no camera: the emulator text on an emulator,
      otherwise the camera error with the exception's detail (empty when there is no camera
      at all). */
  function StartError(open: CameraOpen, isEmulator: bool): Message
  {
    if isEmulator then EmulatorError
    else CameraError(if open.OpenFailed? then open.detail else "")
  }

  /** `startCamera`: re-checks the conditions; does nothing more when they fail or the camera
      is already on; otherwise opens the camera. An open that yields no camera leaves the
      camera off with an Error; a successful one selects the middle preview size and reports
      Normal "running". A null camera is handled like a thrown exception here; the source
      does not catch it (see `StartCameraAsWritten`). */
  function StartCamera(s: Service, open: CameraOpen, isEmulator: bool): (r: Service)
    ensures SameSetting(r, s)
    ensures r.state.cameraOn <==> s.state.cameraOn || (Allowed(s) && open.Opened?)
    ensures !Allowed(s) ==>
              r.actions == s.actions && r.state.severity == Warning && r.preview == s.preview
    ensures Allowed(s) && s.state.cameraOn ==> r.actions == s.actions && r.preview == s.preview
    ensures Allowed(s) && !s.state.cameraOn ==> r.actions == s.actions + [OpenAttempt]
    ensures Allowed(s) && !s.state.cameraOn && !open.Opened? ==>
              && r.state.severity == Error
              && r.state.message == StartError(open, isEmulator)
              && r.preview == s.preview
    ensures Allowed(s) && !s.state.cameraOn && open.Opened? ==>
              && r.state.severity == Normal
              && r.state.message == Running
              && r.preview == Some(open.sizes[PreviewIndex(|open.sizes|)])
    ensures s.emitted <= r.emitted
    ensures Published(s) ==> Published(r)
    ensures PreviewChosen(s) ==> PreviewChosen(r)
  {
    var c := CheckConditions(s);
    if !c.allowed || c.svc.state.cameraOn then
      c.svc
    else
      // `state.cameraOn = false` before the open is a no-op here: the guard saw it false.
      var t := c.svc.(actions := c.svc.actions + [OpenAttempt]);
      match open
      case Opened(sizes) =>
        var u := t.(state := t.state.(cameraOn := true),
                    preview := Some(sizes[PreviewIndex(|sizes|)]));
        SetState(u, Normal, Running)
      case _ =>
        SetState(t, Error, StartError(open, isEmulator))
  }

  /** `startCamera` as the source has it. Only `Camera.open()` is inside the `try`: when it
      returns null, the camera flag has already been set and the `!!` on the camera throws
      outside the handler. The exception leaves `startCamera` with the flag on and no post
      after the check's. Called from `onStartCommand` or `onSharedPreferenceChanged`, it
      crashes the service; called from the event-bus subscriber `onBatteryEvent`, the event
      bus logs it and the service carries on with the flag on and no camera. Every other
      outcome is the one `StartCamera` gives. */
  function StartCameraAsWritten(s: Service, open: CameraOpen, isEmulator: bool): (r: Service)
    ensures !open.NoCamera? ==> r == StartCamera(s, open, isEmulator)
    ensures open.NoCamera? ==> SameSetting(r, s) && r.preview == s.preview
    ensures open.NoCamera? && Allowed(s) && !s.state.cameraOn ==>
              && r.state.cameraOn
              && r.actions == s.actions + [OpenAttempt]
              && (r.emitted == s.emitted || r.emitted == s.emitted + [r.state.(cameraOn := false)])
  {
    if !open.NoCamera? then StartCamera(s, open, isEmulator)
    else
      var c := CheckConditions(s);
      if !c.allowed || c.svc.state.cameraOn then
        c.svc
      else
        c.svc.(state := c.svc.state.(cameraOn := true), actions := c.svc.actions + [OpenAttempt])
  }

  /** `stopCamera`: idempotent; when the camera is on, releases it and posts the state. */
  function StopCamera(s: Service): (r: Service)
    ensures !r.state.cameraOn
    ensures !s.state.cameraOn ==> r == s
    ensures s.state.cameraOn ==>
              && r.state == s.state.(cameraOn := false)
              && r.actions == s.actions + [Release]
              && r.emitted == s.emitted + [r.state]
    ensures r == s.(state := r.state, actions := r.actions, emitted := r.emitted)
  {
    if !s.state.cameraOn then s
    else Emit(s.(state := s.state.(cameraOn := false), actions := s.actions + [Release]))
  }

  /** `startStopOnConditionChange`: at most one camera action, chosen by the verdict. Passing
      with the camera off starts it, failing with the camera on stops it, and otherwise the
      camera is left as it is. */
  function Reconcile(s: Service, open: CameraOpen, isEmulator: bool): (r: Service)
    ensures SameSetting(r, s)
    ensures r.state.cameraOn <==> Allowed(s) && (s.state.cameraOn || open.Opened?)
    ensures r.actions == s.actions + (if Allowed(s) && !s.state.cameraOn then [OpenAttempt]
                                      else if !Allowed(s) && s.state.cameraOn then [Release]
                                      else [])
    ensures !Allowed(s) ==>
              && r.state.severity == Warning
              && forall rule: Rule :: rule.Decides(s) ==> r.state.message == rule.Warning()
    ensures Allowed(s) && s.state.cameraOn ==>
              if s.state.severity == Error then r.state == s.state
              else r.state == s.state.(severity := Normal, message := NoMessage)
    ensures Allowed(s) && !s.state.cameraOn && !open.Opened? ==> r.state.severity == Error
    ensures Allowed(s) && !s.state.cameraOn && open.Opened? ==>
              r.state.severity == Normal && r.state.message == Running
    ensures s.emitted <= r.emitted
    ensures Published(s) ==> Published(r)
    ensures PreviewChosen(s) ==> PreviewChosen(r)
  {
    var c := CheckConditions(s);
    if c.allowed && !c.svc.state.cameraOn then
      StartCamera(c.svc, open, isEmulator)
    else if !c.allowed && c.svc.state.cameraOn then
      StopCamera(c.svc)
    else
      c.svc
  }

  // ---------------------------------------------------------------------------------------
  // Event handlers
  // ---------------------------------------------------------------------------------------

  /** `onCreate`: the service is running and says so. */
  function OnCreate(s: Service): (r: Service)
    ensures r.state == s.state.(running := true)
    ensures Published(r) && r.emitted == s.emitted + [r.state]
    ensures r == s.(state := r.state, emitted := r.emitted)
  {
    Emit(s.(state := s.state.(running := true)))
  }

  /** `onStartCommand`: loads the settings and starts the camera, then records the battery
      state returned by the receiver registration; the camera start therefore sees the battery
      state the service held before. */
  function OnStartCommand(s: Service, config: Config, registered: Battery,
                          open: CameraOpen, isEmulator: bool): (r: Service)
    ensures r.config == config && r.battery == registered
    ensures r.state.running == s.state.running && SameReadings(r.state, s.state)
    ensures r.state.cameraOn <==>
              s.state.cameraOn || (Allowed(s.(config := config)) && open.Opened?)
    ensures |r.actions| <= |s.actions| + 1
    ensures PreviewChosen(s) ==> PreviewChosen(r)
  {
    StartCamera(s.(config := config), open, isEmulator).(battery := registered)
  }

  /** `onDestroy`: releases the camera if it is on, then posts a stopped state. */
  function OnDestroy(s: Service): (r: Service)
    ensures !r.state.running && !r.state.cameraOn && Published(r)
    ensures r.actions == s.actions + (if s.state.cameraOn then [Release] else [])
    ensures r.battery == s.battery && r.config == s.config && SameReadings(r.state, s.state)
    ensures s.emitted <= r.emitted
  {
    var t := StopCamera(s);
    Emit(t.(state := t.state.(running := false)))
  }

  /** `onSensorChanged`: caches the reading of an accelerometer or temperature sensor; other
      sensors and a missing event are ignored. Nothing is posted and nothing reconciles. */
  function OnSensorChanged(s: Service, event: Option<SensorEvent>): (r: Service)
    ensures r == s.(state := r.state)
    ensures r.state.running == s.state.running && r.state.cameraOn == s.state.cameraOn
    ensures r.state.severity == s.state.severity && r.state.message == s.state.message
    ensures event.Some? && event.value.Accelerometer? ==>
              && r.state.temperature == s.state.temperature
              && r.state.accX == event.value.x
              && r.state.accY == event.value.y
              && r.state.accZ == event.value.z
    ensures event.Some? && event.value.AmbientTemperature? ==>
              && r.state.temperature == event.value.celsius
              && r.state.accX == s.state.accX
              && r.state.accY == s.state.accY
              && r.state.accZ == s.state.accZ
    ensures event.None? || event.value.OtherSensor? ==> r == s
  {
    match event
    case Some(Accelerometer(x, y, z)) => s.(state := s.state.(accX := x, accY := y, accZ := z))
    case Some(AmbientTemperature(t)) => s.(state := s.state.(temperature := t))
    case _ => s
  }

  /** `onBatteryEvent`: stores the new battery state and reconciles against it. */
  function OnBatteryEvent(s: Service, battery: Battery, open: CameraOpen, isEmulator: bool)
    : (r: Service)
    ensures r.battery == battery && r.config == s.config
    ensures r.state.cameraOn <==>
              Allowed(s.(battery := battery)) && (s.state.cameraOn || open.Opened?)
    ensures |r.actions| <= |s.actions| + 1
    ensures Published(s) ==> Published(r)
    ensures PreviewChosen(s) ==> PreviewChosen(r)
  {
    Reconcile(s.(battery := battery), open, isEmulator)
  }

  /** `onSharedPreferenceChanged`: the service reconciles. The handler keeps its settings
      object; `config` is the settings that object reports after the change. */
  function OnSharedPreferenceChanged(s: Service, config: Config, open: CameraOpen,
                                     isEmulator: bool): (r: Service)
    ensures r.config == config && r.battery == s.battery
    ensures r.state.cameraOn <==>
              Allowed(s.(config := config)) && (s.state.cameraOn || open.Opened?)
    ensures |r.actions| <= |s.actions| + 1
    ensures Published(s) ==> Published(r)
    ensures PreviewChosen(s) ==> PreviewChosen(r)
  {
    Reconcile(s.(config := config), open, isEmulator)
  }
}

=== FILE: detector_state.dfy ===
/** The records the detector publishes and reads: the published state event, the battery
    event and the detector settings. */
module DetectorState {

  datatype Option<+T> = None | Some(value: T)

  /** DetectorStateEvent.StateType. Kotlin compares enum constants by declaration order,
      which `Ordinal` reproduces. */
  datatype Severity = Normal | Warning | Error {
    function Ordinal(): nat
    {
      match this
      case Normal => 0
      case Warning => 1
      case Error => 2
    }

    /** Kotlin's `this < other` on StateType. */
    predicate Below(other: Severity)
    {
      Ordinal() < other.Ordinal()
    }
  }

  /** The status texts, as tags for the string resources they are read from. */
  datatype Message =
    | NoMessage                   // the empty status ""
    | ChargingRequired            // warning_condition_charging
    | LowBattery                  // warning_condition_low_battery
    | TooHot                      // warning_condition_too_heat
    | Running                     // status_fragment_running
    | EmulatorError               // error_emulator
    | CameraError(detail: string) // error_camera, formatted with the exception's message

  /** DetectorStateEvent: the snapshot the service posts on the event bus. */
  datatype StateEvent = StateEvent(
    running: bool,
    cameraOn: bool,
    severity: Severity,
    message: Message,
    temperature: int,
    accX: int,
    accY: int,
    accZ: int)

  /** `DetectorStateEvent(running)` with every other field at its default. */
  function InitialState(running: bool): StateEvent
  {
    StateEvent(running, false, Normal, NoMessage, 0, 0, 0, 0)
  }

  /** The sensor readings a snapshot carries agree. */
  predicate SameReadings(a: StateEvent, b: StateEvent)
  {
    a.temperature == b.temperature && a.accX == b.accX && a.accY == b.accY && a.accZ == b.accZ
  }

  /** BatteryEvent: power source and charge level as parsed from the battery broadcast. */
  datatype Battery = Battery(isCharging: bool, pct: int)

  /** The ConfigurationInfo settings the condition check reads. */
  datatype Config = Config(chargerOnly: bool, batteryLevel: int, maxTemperature: int)
}

=== FILE: service_lifecycle.dfy ===
/** DetectorService over its whole lifetime: callbacks as a typed event stream applied in
    order, from `onCreate` to `onDestroy`. */
module ServiceLifecycle {
  import opened DetectorState
  import opened DetectorService

  /** The callbacks the service receives, with the hardware outcomes they depend on. */
  datatype Event =
    | Create
    | StartCommand(config: Config, registered: Battery, open: CameraOpen, isEmulator: bool)
    | BatteryChanged(battery: Battery, open: CameraOpen, isEmulator: bool)
    | PreferenceChanged(config: Config, open: CameraOpen, isEmulator: bool)
    | SensorChanged(event: Option<SensorEvent>)
    | Destroy

  function Apply(s: Service, e: Event): Service
  {
    match e
    case Create => OnCreate(s)
    case StartCommand(config, registered, open, isEmulator) =>
      OnStartCommand(s, config, registered, open, isEmulator)
    case BatteryChanged(battery, open, isEmulator) => OnBatteryEvent(s, battery, open, isEmulator)
    case PreferenceChanged(config, open, isEmulator) =>
      OnSharedPreferenceChanged(s, config, open, isEmulator)
    case SensorChanged(event) => OnSensorChanged(s, event)
    case Destroy => OnDestroy(s)
  }

  /** The service after handling `es` in order. */
  function Run(s: Service, es: seq<Event>): Service
    decreases |es|
  {
    if es == [] then s else Run(Apply(s, es[0]), es[1..])
  }

  /** Events delivered to a live service: no lifecycle callback among them. */
  predicate Alive(es: seq<Event>)
  {
    forall k :: 0 <= k < |es| ==> !es[k].Create? && !es[k].Destroy?
  }

  /** The lifecycle invariant: a service that is not running holds no camera. */
  predicate Idle(s: Service)
  {
    !s.state.running ==> !s.state.cameraOn
  }

  /** Any stretch of a live event stream is live. */
  lemma AliveSlice(es: seq<Event>, i: nat, j: nat)
    requires Alive(es) && i <= j <= |es|
    ensures Alive(es[i..j])
  {
    forall k | 0 <= k < j - i
      ensures es[i..j][k] == es[i + k]
    {
    }
  }

  /** Handling one more event is applying it to the service handled so far. */
  lemma {:induction false} RunSnoc(s: Service, es: seq<Event>, e: Event)
    ensures Run(s, es + [e]) == Apply(Run(s, es), e)
    decreases |es|
  {
    if es == [] {
      assert [e][1..] == [];
    } else {
      assert (es + [e])[1..] == es[1..] + [e];
      RunSnoc(Apply(s, es[0]), es[1..], e);
    }
  }

  /** Each callback makes at most one camera call: an open, a release, or none. */
  lemma OneCameraCallPerCallback(s: Service, e: Event)
    ensures |Apply(s, e).actions| <= |s.actions| + 1
  {
  }

  /** Every callback keeps the camera's preview size chosen while the camera is on. */
  lemma ApplyKeepsPreview(s: Service, e: Event)
    requires PreviewChosen(s)
    ensures PreviewChosen(Apply(s, e))
  {
  }

  /** Whatever callbacks arrive, in whatever order, a camera that is on has its preview size
      chosen. */
  lemma {:induction false} RunKeepsPreview(s: Service, es: seq<Event>)
    requires PreviewChosen(s)
    ensures PreviewChosen(Run(s, es))
    decreases |es|
  {
    if es != [] {
      ApplyKeepsPreview(s, es[0]);
      RunKeepsPreview(Apply(s, es[0]), es[1..]);
    }
  }

  /** Between `onCreate` and `onDestroy` the service keeps running, posts are only ever
      appended, and the camera calls never outnumber the callbacks. */
  lemma {:induction false} RunningWhileAlive(s: Service, es: seq<Event>)
    requires s.state.running && Alive(es)
    ensures Run(s, es).state.running
    ensures s.emitted <= Run(s, es).emitted
    ensures |Run(s, es).actions| <= |s.actions| + |es|
    decreases |es|
  {
    if es != [] {
      var t := Apply(s, es[0]);
      AliveSlice(es, 1, |es|);
      assert es[1..|es|] == es[1..];
      RunningWhileAlive(t, es[1..]);
    }
  }

  /** A whole lifetime, `onCreate`, `onStartCommand`, any callbacks, `onDestroy`: at every point a service that
      is not running holds no camera, and at the end the camera is released and the stopped
      state is the last thing posted. */
  lemma {:induction false} Lifetime(s: Service, es: seq<Event>)
    requires Idle(s) && Alive(es)
    requires |es| > 0 && es[0].StartCommand?
    ensures var life := [Create] + es + [Destroy];
            forall k :: 0 <= k <= |life| ==> Idle(Run(s, life[..k]))
    ensures var r := Run(s, [Create] + es + [Destroy]);
            !r.state.running && !r.state.cameraOn && Published(r)
  {
    var life := [Create] + es + [Destroy];
    var c := OnCreate(s);
    assert Run(s, [Create] + es) == Run(c, es) by {
      assert ([Create] + es)[1..] == es;
    }
    RunSnoc(s, [Create] + es, Destroy);
    assert life == [Create] + es + [Destroy];
    forall k | 0 <= k <= |life|
      ensures Idle(Run(s, life[..k]))
    {
      if k == 0 {
        assert life[..k] == [];
      } else if k <= |es| + 1 {
        assert life[..k] == [Create] + es[..k - 1];
        assert ([Create] + es[..k - 1])[1..] == es[..k - 1];
        AliveSlice(es, 0, k - 1);
        assert es[0..k - 1] == es[..k - 1];
        RunningWhileAlive(c, es[..k - 1]);
      } else {
        assert life[..k] == life;
      }
    }
  }

  /** The start/stop/restart sequence: with no charger needed, at least 20% battery and at
      most 45 degrees. The start command checks the battery state the service held before
      registration, `initial`, so it opens the camera exactly when that state has 20% or more
      (the sensors are registered only after it, so the default reading applies). Whatever
      `initial` is, the first battery broadcast at 50% leaves the camera running after one
      open; a 50-degree reading stops it with the "too hot" warning once the next broadcast
      arrives, and 30 degrees restarts it. */
  lemma HotThenCoolScenario(initial: Battery)
    ensures var config := Config(false, 20, 45);
            var battery := Battery(false, 50);
            var open := Opened([PreviewSize(640, 480)]);
            var s1 := OnStartCommand(OnCreate(Fresh(initial, config)), config, battery, open, false);
            var s2 := OnBatteryEvent(s1, battery, open, false);
            var s3 := OnBatteryEvent(OnSensorChanged(s2, Some(AmbientTemperature(50))),
                                     battery, open, false);
            var s4 := OnBatteryEvent(OnSensorChanged(s3, Some(AmbientTemperature(30))),
                                     battery, open, false);
            && (s1.state.cameraOn <==> initial.pct >= 20)
            && s2.state.cameraOn && s2.state.severity == Normal && s2.actions == [OpenAttempt]
            && !s3.state.cameraOn && s3.state.severity == Warning && s3.state.message == TooHot
            && s4.state.cameraOn && s4.state.severity == Normal && s4.state.message == Running
            && s4.actions == [OpenAttempt, Release, OpenAttempt]
  {
    StartThenFirstBattery(initial);
    var config := Config(false, 20, 45);
    var battery := Battery(false, 50);
    var open := Opened([PreviewSize(640, 480)]);
    var s1 := OnStartCommand(OnCreate(Fresh(initial, config)), config, battery, open, false);
    HotStopsCoolRestarts(OnBatteryEvent(s1, battery, open, false));
  }

  /** The first two steps of `HotThenCoolScenario`: whether or not the start command opened
      the camera, the first battery broadcast at 50% leaves it running after one open. */
  lemma StartThenFirstBattery(initial: Battery)
    ensures var config := Config(false, 20, 45);
            var battery := Battery(false, 50);
            var open := Opened([PreviewSize(640, 480)]);
            var s1 := OnStartCommand(OnCreate(Fresh(initial, config)), config, battery, open, false);
            var s2 := OnBatteryEvent(s1, battery, open, false);
            && (s1.state.cameraOn <==> initial.pct >= 20)
            && s2.state.cameraOn && s2.state.severity == Normal && s2.actions == [OpenAttempt]
            && s2.config == config && s2.battery == battery && s2.state.temperature == 0
  {
    var config := Config(false, 20, 45);
    var battery := Battery(false, 50);
    var open := Opened([PreviewSize(640, 480)]);
    var c := OnCreate(Fresh(initial, config));
    if initial.pct >= 20 {
      assert Allowed(c.(config := config));
    } else {
      assert BatteryLevel.Decides(c.(config := config));
    }
    var s1 := OnStartCommand(c, config, battery, open, false);
    assert s1.actions == (if initial.pct >= 20 then [OpenAttempt] else []);
    assert Allowed(s1.(battery := battery));
  }

  /** The last two steps of `HotThenCoolScenario`: from a running camera, a 50-degree reading
      stops it at the next broadcast and a 30-degree reading restarts it at the one after. */
  lemma HotStopsCoolRestarts(s2: Service)
    requires s2.config == Config(false, 20, 45) && s2.battery == Battery(false, 50)
    requires s2.state.cameraOn && s2.actions == [OpenAttempt]
    ensures var battery := Battery(false, 50);
            var open := Opened([PreviewSize(640, 480)]);
            var s3 := OnBatteryEvent(OnSensorChanged(s2, Some(AmbientTemperature(50))),
                                     battery, open, false);
            var s4 := OnBatteryEvent(OnSensorChanged(s3, Some(AmbientTemperature(30))),
                                     battery, open, false);
            && !s3.state.cameraOn && s3.state.severity == Warning && s3.state.message == TooHot
            && s4.state.cameraOn && s4.state.severity == Normal && s4.state.message == Running
            && s4.actions == [OpenAttempt, Release, OpenAttempt]
  {
    var battery := Battery(false, 50);
    var open := Opened([PreviewSize(640, 480)]);
    var hot := OnSensorChanged(s2, Some(AmbientTemperature(50)));
    assert MaxTemperature.Decides(hot.(battery := battery));
    var s3 := OnBatteryEvent(hot, battery, open, false);
    assert !s3.state.cameraOn && s3.actions == [OpenAttempt, Release];
    var cool := OnSensorChanged(s3, Some(AmbientTemperature(30)));
    assert Allowed(cool.(battery := battery));
  }
}

=== FILE: service_properties.dfy ===
/** Properties of DetectorService that relate several calls or single out one rule. */
module ServiceProperties {
  import opened DetectorState
  import opened DetectorService

  /** The verdict reads only the battery state, the settings and the cached temperature. */
  lemma AllowedReadsSetting(a: Service, b: Service)
    requires a.battery == b.battery && a.config == b.config
    requires a.state.temperature == b.state.temperature
    ensures Allowed(a) <==> Allowed(b)
  {
    forall rule: Rule
      ensures rule.Fails(a) <==> rule.Fails(b)
    {
    }
  }

  /** Rule 1: with charger-only set and no charger, the check refuses with the charging
      warning, and this is the only way to get that warning. */
  lemma ChargingWarningIff(s: Service)
    ensures var c := CheckConditions(s);
            !c.allowed && c.svc.state.message == ChargingRequired <==>
              s.config.chargerOnly && !s.battery.isCharging
  {
  }

  /** Rule 2 is reached only when rule 1 passes, and fails only when the charge level is
      strictly below the threshold. */
  lemma LowBatteryWarningIff(s: Service)
    ensures var c := CheckConditions(s);
            !c.allowed && c.svc.state.message == LowBattery <==>
              !(s.config.chargerOnly && !s.battery.isCharging) &&
              s.battery.pct < s.config.batteryLevel
  {
  }

  /** Rule 3 is reached only when rules 1 and 2 pass, and fails only when the temperature is
      strictly above the maximum. */
  lemma TooHotWarningIff(s: Service)
    ensures var c := CheckConditions(s);
            !c.allowed && c.svc.state.message == TooHot <==>
              !(s.config.chargerOnly && !s.battery.isCharging) &&
              s.battery.pct >= s.config.batteryLevel &&
              s.state.temperature > s.config.maxTemperature
  {
  }

  /** Whatever the charge level and temperature, a missing charger under charger-only decides
      the outcome. */
  lemma ChargerRuleDominates(s: Service, pct: int, temperature: int)
    requires s.config.chargerOnly && !s.battery.isCharging
    ensures var t := s.(battery := s.battery.(pct := pct),
                        state := s.state.(temperature := temperature));
            CheckConditions(t) == Checked(false, SetState(t, Warning, ChargingRequired))
  {
  }

  /** A passing check never lowers an Error; a failing one replaces it with a Warning. */
  lemma ErrorOnlyLeftByFailingCheck(s: Service)
    requires s.state.severity == Error
    ensures var c := CheckConditions(s);
            (c.allowed ==> c.svc.state.severity == Error && c.svc.state.message == s.state.message) &&
            (!c.allowed ==> c.svc.state.severity == Warning)
  {
  }

  /** After a reconcile whose camera open would succeed, a second reconcile with nothing
      changed makes no camera call and leaves the camera as it was. */
  lemma ReconcileSettles(s: Service, o1: CameraOpen, e1: bool,
                         o2: CameraOpen, e2: bool)
    requires o1.Opened?
    ensures var r1 := Reconcile(s, o1, e1);
            var r2 := Reconcile(r1, o2, e2);
            r2.actions == r1.actions && r2.state.cameraOn == r1.state.cameraOn &&
            |r1.actions| <= |s.actions| + 1
  {
  }

  /** A failed open, or one that found no camera, is retried by the next reconcile whose conditions still pass. */
  lemma FailedOpenRetried(s: Service, o1: CameraOpen, e1: bool,
                          o2: CameraOpen, e2: bool)
    requires Allowed(s) && !s.state.cameraOn && !o1.Opened?
    ensures var r1 := Reconcile(s, o1, e1);
            var r2 := Reconcile(r1, o2, e2);
            r2.actions == s.actions + [OpenAttempt, OpenAttempt] &&
            (r2.state.cameraOn <==> o2.Opened?)
  {
  }

  /** As the source is written, a start on a device without a back-facing camera leaves the
      camera flag on while the last post still says it is off. */
  lemma NoCameraAsWrittenUnreported(s: Service, isEmulator: bool)
    requires Published(s) && Allowed(s) && !s.state.cameraOn
    ensures var r := StartCameraAsWritten(s, NoCamera, isEmulator);
            r.state.cameraOn && !Published(r)
  {
  }

  /** With the missing camera handled like a failed open, the start reports Error with the
      camera off, and the published state is the current one. */
  lemma NoCameraReported(s: Service, isEmulator: bool)
    requires Published(s) && Allowed(s) && !s.state.cameraOn
    ensures var r := StartCamera(s, NoCamera, isEmulator);
            !r.state.cameraOn && Published(r) && r.state.severity == Error &&
            r.actions == s.actions + [OpenAttempt]
  {
  }

  /** Starting twice opens the camera once when the first open succeeds. */
  lemma StartCameraIdempotent(s: Service, o1: CameraOpen, e1: bool,
                              o2: CameraOpen, e2: bool)
    requires o1.Opened?
    ensures var r1 := StartCamera(s, o1, e1);
            var r2 := StartCamera(r1, o2, e2);
            r2.actions == r1.actions && r2.state.cameraOn == r1.state.cameraOn &&
            r2.preview == r1.preview
  {
  }

  /** Stopping twice is the same as stopping once. */
  lemma StopCameraIdempotent(s: Service)
    ensures StopCamera(StopCamera(s)) == StopCamera(s)
  {
  }

  /** The "running" status lasts only until the next reconcile: with the camera on and the
      conditions still passing, the message becomes empty. */
  lemma RunningMessageCleared(s: Service, o1: CameraOpen, e1: bool,
                              o2: CameraOpen, e2: bool)
    requires Allowed(s) && !s.state.cameraOn && o1.Opened?
    ensures var r1 := Reconcile(s, o1, e1);
            var r2 := Reconcile(r1, o2, e2);
            r1.state.message == Running && r2.state.cameraOn &&
            r2.state.severity == Normal && r2.state.message == NoMessage
  {
  }

  /** With five supported sizes the third one is used. */
  lemma MediumPreviewSize()
    ensures var sizes: SizeList := [PreviewSize(320, 240), PreviewSize(640, 480),
                                    PreviewSize(1280, 720), PreviewSize(1920, 1080),
                                    PreviewSize(3840, 2160)];
            PreviewIndex(|sizes|) == 2 && sizes[PreviewIndex(|sizes|)] == PreviewSize(1280, 720)
  {
  }
}

=== FILE: text.dfy ===
/** The two Kotlin string tests the emulator heuristic relies on: `startsWith` and `contains`. */
module Text {

  /** Kotlin `s.startsWith(p)`: `p` is a prefix of `s`. */
  predicate StartsWith(s: string, p: string)
  {
    |p| <= |s| && s[..|p|] == p
  }

  /** `t` occurs in `s` starting at index `i`. */
  ghost predicate OccursAt(s: string, t: string, i: int)
  {
    0 <= i && i + |t| <= |s| && s[i..i + |t|] == t
  }

  /** Kotlin `s.contains(t)`, scanning `s` from the left. */
  function Contains(s: string, t: string): bool
    decreases |s|
  {
    if StartsWith(s, t) then true
    else if |s| <= |t| then false
    else Contains(s[1..], t)
  }

  /** Dropping the first character shifts every occurrence one place to the left. */
  lemma OccursShift(s: string, t: string, i: nat)
    requires |s| > 0
    ensures OccursAt(s[1..], t, i) <==> OccursAt(s, t, i + 1)
  {
    if i + |t| <= |s| - 1 {
      assert s[1..][i..i + |t|] == s[i + 1..i + 1 + |t|];
    }
  }

  /** The scan finds `t` exactly when some window of `s` equals `t`. */
  lemma {:induction false} ContainsIff(s: string, t: string)
    ensures Contains(s, t) <==> exists i :: OccursAt(s, t, i)
    decreases |s|
  {
    assert StartsWith(s, t) <==> OccursAt(s, t, 0) by {
      if |t| <= |s| {
        assert s[..|t|] == s[0..|t|];
      }
    }
    if StartsWith(s, t) {
    } else if |s| <= |t| {
      assert forall i :: OccursAt(s, t, i) ==> i == 0;
    } else {
      ContainsIff(s[1..], t);
      forall j: nat
        ensures OccursAt(s[1..], t, j) <==> OccursAt(s, t, j + 1)
      {
        OccursShift(s, t, j);
      }
      if exists i :: OccursAt(s, t, i) {
        var i :| OccursAt(s, t, i);
        assert OccursAt(s[1..], t, i - 1);
      }
    }
  }

  /** A prefix is an occurrence at index 0. */
  lemma StartsWithIff(s: string, p: string)
    ensures StartsWith(s, p) <==> OccursAt(s, p, 0)
  {
    if |p| <= |s| {
      assert s[..|p|] == s[0..|p|];
    }
  }
}

=== FILE: wiring.dfy ===
/** An event bus between a detector service and CredoApplication, under the assumption that
    the detector service the application starts posts its states as the modelled
    DetectorService does: every state posted is delivered, in order, to the application's
    `onDetectorStateChange`. */
module Wiring {
  import opened DetectorState
  import DetectorService
  import CredoApplication

  /** The application after receiving `posts` in order. */
  function Deliver(a: CredoApplication.App, posts: seq<StateEvent>): CredoApplication.App
    decreases |posts|
  {
    if posts == [] then a
    else Deliver(CredoApplication.OnDetectorStateChange(a, posts[0]), posts[1..])
  }

  /** Last value wins: the application's flag and stored state are those of the last post,
      and delivery neither starts nor stops a service nor changes the mode. */
  lemma {:induction false} LastPostWins(a: CredoApplication.App, posts: seq<StateEvent>)
    requires |posts| > 0
    ensures Deliver(a, posts).detectorRunning == posts[|posts| - 1].running
    ensures Deliver(a, posts).detectorState == posts[|posts| - 1]
    ensures Deliver(a, posts).mode == a.mode && Deliver(a, posts).commands == a.commands
    decreases |posts|
  {
    var b := CredoApplication.OnDetectorStateChange(a, posts[0]);
    if |posts| > 1 {
      LastPostWins(b, posts[1..]);
    }
  }

  /** Once the posts of the service's `onDestroy` reach the application, it sees the detector
      stopped, and the next `turnOnDetection` acts again. */
  lemma DestroyReenablesTurnOn(a: CredoApplication.App, s: DetectorService.Service,
                               mode: CredoApplication.DetectorMode)
    ensures var d := DetectorService.OnDestroy(s);
            var a' := Deliver(a, d.emitted[|s.emitted|..]);
            && !a'.detectorRunning && !a'.detectorState.cameraOn
            && CredoApplication.TurnOnDetection(a', mode).detectorRunning
            && CredoApplication.TurnOnDetection(a', mode).mode == CredoApplication.Check
  {
    var d := DetectorService.OnDestroy(s);
    var posts := d.emitted[|s.emitted|..];
    assert posts[|posts| - 1] == d.emitted[|d.emitted| - 1];
    LastPostWins(a, posts);
  }

  /** Once the post of the service's `onCreate` reaches the application, a further
      `turnOnDetection` is ignored. */
  lemma CreateBlocksTurnOn(a: CredoApplication.App, s: DetectorService.Service,
                           mode: CredoApplication.DetectorMode)
    ensures var c := DetectorService.OnCreate(s);
            var a' := Deliver(a, c.emitted[|s.emitted|..]);
            a'.detectorRunning && CredoApplication.TurnOnDetection(a', mode) == a'
  {
  }
}
